=== FILE: README.md ===
# Portfolio tracker core, modelled in Dafny

The portfolio tracker is a client-side web app. Each portfolio ("user") holds an ordered list of
Alpha rewards and an ordered list of trade events. The app shows the active portfolio's total
value and keeps everything in browser-local storage behind a password screen.

This project models the logic of that app without its rendering:

- **Record shapes** (`types.dfy`, module `Types`). `AlphaReward`, `TradeEvent` and `User`
  mirror the interfaces of `types.ts`. Numbers are `real`. `AppData` is the user list plus the
  optional active-user id. `Truthy` is JavaScript truthiness of a `string | null`.
- **String primitives** (`text.dfy`, module `Text`).
  - `Trim` is ECMAScript `String.prototype.trim`, over the exact whitespace and line-terminator
    set.
  - `Utf16Length` is `String.length`, which counts UTF-16 code units.
- **Record store** (`records.dfy`, module `Records`). Every list handler of `App.tsx` is a pure
  function from the data and the form contents to the next data:
  - the `totalValue` fold;
  - `updateUser`;
  - adding a reward or a trade;
  - a daily entry on a trade;
  - deleting a reward or a trade;
  - adding a user;
  - deleting the current user.

  `record_laws.dfy` (module `RecordLaws`) relates the handlers:
  - how each one moves the total;
  - that a delete undoes an add;
  - that daily entries compose.
- **Persistence** (`persistence.dfy`, module `Persistence`). The load and save effects work
  over an abstract users key that is absent, holds a list, or holds unparsable text.
- **Hex rendering** (`hex.dfy`, module `Hex`). This is the part of `hashString` that turns a
  digest into text: `toString(16)`, then `padStart(2, '0')`, then `join`.
- **Password screen** (`auth.dfy`, module `Auth`).
  - The setup checks run in their order.
  - Login compares digests.
  - The screen's error and loading flags after a submit.
- **Gate and app** (`gate.dfy`, module `Gate`; `app.dfy`, module `App`).
  - The phases are loading, setup, login and the app.
  - The whole app is a sequential state machine: mount, password submit, logout, and the
    handlers, each followed by its save effect.
  - `App.Inv` is the invariant every step keeps. One part of it: while the app is shown, the
    users key holds exactly the in-memory list.

Two JavaScript quirks are modelled as written:

- **Empty strings are falsy.** An active id of `""` counts as no active user in every handler.
  `find` still matches a user whose id is `""`.
- **A users key holding the empty string** is treated like an absent key by the load effect,
  which seeds the default user.

The effects of one React commit run here in declaration order. On the commit that opens the
gate, the save effect still sees the previous render's list. The render after the load then
saves the loaded list. `App.OnAuthenticated` models both saves.

## Model

| member | source | states |
|---|---|---|
| Text.Trim | App.tsx:182-185 | the trimmed name is the slice of the input between its first and last non-whitespace character, framed only by whitespace; it is empty exactly when the input is all whitespace |
| Text.TrimStart | App.tsx:182 | the scan stops at the first character that is not whitespace, skipping only whitespace, or at the end |
| Text.TrimEnd | App.tsx:182 | the scan backs up over trailing whitespace only, stopping after the last character that is not whitespace |
| Text.TrimIdempotent | App.tsx:182-185 | trimming an already trimmed name changes nothing |
| Text.Utf16Length | components/AuthScreen.tsx:39 | `password.length` counts UTF-16 code units: between one and two per character, zero only for the empty string |
| Text.Utf16LengthOfBmp | components/AuthScreen.tsx:39 | for text inside the Basic Multilingual Plane the length is the character count |
| Text.Utf16LengthAppend | components/AuthScreen.tsx:39 | the length adds up over concatenation |
| Text.Utf16LengthOfAstral | components/AuthScreen.tsx:39 | a character above U+FFFF counts two code units; with the additivity and Basic Multilingual Plane lemmas this fixes `length` for every string |
| Records.MapWhere | App.tsx:106 | the conditional `map` keeps length and order, applies the change to every item with the id, and leaves the other items unchanged |
| Records.UpdateUser | App.tsx:105-107 | `updateUser` keeps the list length and order, applies the update to every user with the id, and leaves all other users unchanged |
| Records.RemoveId | App.tsx:170-178 | the id filter keeps exactly the items whose id differs, and never grows the list |
| Records.WithId | App.tsx:170-178 | the complement of the filter: exactly the items that carry the id |
| Records.RemoveIdAppend | App.tsx:170-178 | the filter keeps survivors in their original order: it distributes over concatenation |
| Records.RemoveIdSnoc | App.tsx:170-178 | one more item survives the filter exactly when it does not carry the id |
| Records.RemoveIdAbsent | App.tsx:170-178 | deleting an id no item carries leaves the list unchanged |
| Records.Sum | App.tsx:100-101 | `reduce` starting from 0: an empty list sums to 0 and a one-item list to that item's value; additivity over concatenation is Records.SumAppend |
| Records.TotalValue | App.tsx:98-103 | with no active user the total is 0; with one, it is the fold of that user's reward values plus the fold of their trade values, with negative values subtracted and nothing clamped. The zero rule for a missing user is RecordLaws.TotalWithoutActiveUser, the unclamped signed sum is RecordLaws.TotalValueExample, and the effect of each handler is in the RecordLaws.TotalAfter lemmas |
| Records.SumAppend | App.tsx:98-103 | the value fold adds up over concatenation |
| Records.SumPartition | App.tsx:98-103 | the fold of a list is the fold of the filter's survivors plus the fold of the removed items |
| Records.FirstIndex | App.tsx:96 | `find` picks the first user with the id, and finds nothing exactly when no user carries it |
| Records.ActiveIndex | App.tsx:96 | the active user is the first user whose id is the active id: it carries the id and no earlier user does; a `null` id selects nobody |
| Records.ActiveUser | App.tsx:96 | the active user exists exactly when some user carries the active id, is a member of the list carrying that id, and is the one at the first matching position |
| Records.ActiveIndexSameIds | App.tsx:96 | changes that keep every user's id in place keep the same active user |
| Records.RewardFormReady | App.tsx:111 | the guard fails without an active id or with an empty token name, and a form that passes has both amounts, so a reward can be built |
| Records.NewReward | App.tsx:113-118 | the new reward carries the fresh id, the token name and the two entered amounts; RecordLaws.TotalAfterAddReward and RecordLaws.DeleteUndoesAddReward use it |
| Records.AddReward | App.tsx:109-123 | with an active id and every field filled, exactly one reward built from the form is appended to the end of each matching user's rewards; trades, names, other users and the selection are unchanged; otherwise a no-op |
| Records.TradeFormReady | App.tsx:127 | the guard fails without an active id or with an empty token name, and a form that passes has all four amounts |
| Records.NewTrade | App.tsx:129-136 | the new trade carries the fresh id and token name; the initial volume and fee start its running totals; reward quantity and value are the entered ones; RecordLaws.TotalAfterAddTrade and RecordLaws.DeleteUndoesAddTrade use it |
| Records.AddTrade | App.tsx:125-141 | with an active id and all five fields filled, exactly one trade is appended to the end of each matching user's trades; rewards and other users are unchanged; otherwise a no-op |
| Records.DailyEntryReady | App.tsx:151 | a null or empty selected trade id never passes the guard, and a form that passes has both amounts |
| Records.Accrue | App.tsx:157-161 | one entry raises the volume and the fee by exactly the entered amounts and leaves every other trade field as it was |
| Records.DailyEntry | App.tsx:149-168 | on each matching trade of each matching user, volume and fee grow by the entered amounts, while `value`, `rewardQuantity`, `tokenName` and `id` stay; other trades and users are unchanged; a missing user, trade or field makes it a no-op |
| Records.DeleteReward | App.tsx:170-173 | the matching users' rewards become the id filter of their rewards; trades and other users are unchanged; a no-op without an active id |
| Records.DeleteTrade | App.tsx:175-178 | the matching users' trades become the id filter of their trades; rewards and other users are unchanged; a no-op without an active id |
| Records.AddUser | App.tsx:180-193 | an all-whitespace name is a no-op; otherwise one user with the trimmed name and empty lists is appended and selected |
| Records.DeleteCurrentUser | App.tsx:195-203 | without an active id or confirmation nothing changes; otherwise the survivors are exactly the users without the id, in their old order, and the selection is the first remaining user or none |
| RecordLaws.SumMapWhere | App.tsx:149-168 | a change that keeps each item's value keeps the fold |
| RecordLaws.TotalValueExample | App.tsx:98-103 | rewards 10 and 5 with trades -3 and 7 total 19: losses are subtracted, not clamped |
| RecordLaws.TotalWithoutActiveUser | App.tsx:98-99 | with no selection, or a selected id that no user carries, the total is 0 |
| RecordLaws.TotalAfterAddReward | App.tsx:98-123 | adding a reward raises the total by its value when the active user exists, and leaves it otherwise (exact arithmetic) |
| RecordLaws.TotalAfterAddTrade | App.tsx:98-141 | adding a trade raises the total by its value when the active user exists, and leaves it otherwise (exact arithmetic) |
| RecordLaws.TotalAfterDeleteReward | App.tsx:98-173 | deleting rewards lowers the total by exactly the values of the active user's rewards with that id (exact arithmetic) |
| RecordLaws.TotalAfterDeleteTrade | App.tsx:98-178 | deleting trades lowers the total by exactly the values of the active user's trades with that id (exact arithmetic) |
| RecordLaws.TotalAfterDailyEntry | App.tsx:98-168 | a daily entry never changes the total |
| RecordLaws.DeleteUndoesAddReward | App.tsx:109-173 | deleting a freshly added reward by its new id gives back the exact previous data |
| RecordLaws.DeleteUndoesAddTrade | App.tsx:125-178 | deleting a freshly added trade by its new id gives back the exact previous data |
| RecordLaws.DailyEntriesCompose | App.tsx:149-168 | two daily entries on one trade equal one entry of their summed volume and fee (exact arithmetic) |
| RecordLaws.DailyEntriesComposeAt | App.tsx:149-168 | the composition law at a single trade of a single user |
| RecordLaws.DailyEntryExample | App.tsx:149-168 | volume 100 and fee 2 plus an entry of 50 and 1 give 150 and 3, with the value unchanged |
| RecordLaws.TotalAfterAddUser | App.tsx:180-193 | a newly added user with a fresh id is selected and shows a total of 0 |
| RecordLaws.DeleteUndoesAddUser | App.tsx:180-203 | a confirmed delete of a freshly added user gives back the previous user list |
| RecordLaws.DeleteCurrentUserMembers | App.tsx:197 | a confirmed delete keeps every user without the active id and no user with it |
| RecordLaws.DeleteCurrentUserSelectsFirstSurvivor | App.tsx:195-203 | after a delete, the selection is the first user in the original order whose id differs from the deleted one |
| RecordLaws.DeleteLastUsersClearsSelection | App.tsx:195-203 | when every user carried the deleted id, no users and no selection remain |
| RecordLaws.RemoveIdAllMatch | App.tsx:197 | filtering out an id that every user carries leaves nothing |
| RecordLaws.RemoveIdKeepsHead | App.tsx:197-201 | a first item without the id stays first after the filter |
| Persistence.SlotTruthy | App.tsx:51 | an absent key and empty text are falsy; a stored list, whose JSON text is never empty, is truthy |
| Persistence.DefaultUser | App.tsx:60-65 | the seeded user is "My Portfolio" with the given id and no rewards or trades; App.FirstSetupSeedsDefault and Persistence.EmptyListOverFalsyKeySeedsDefault use it |
| Persistence.Load | App.tsx:47-73 | when authenticated: a falsy key seeds one "My Portfolio" user and selects it; a stored list is taken whole, and its first user is selected if there is one; an empty list or unparsable text keeps the selection; unparsable text yields no users |
| Persistence.Save | App.tsx:76-81 | the save writes the list exactly when authenticated and the list is non-empty or the key already holds a truthy value; otherwise the key is unchanged |
| Persistence.LoadAfterSave | App.tsx:47-81 | a list that was written loads back whole, with its first user selected |
| Persistence.EmptyListIsNotReseeded | App.tsx:51-57 | a stored empty list loads as no users; no default user is seeded |
| Persistence.EmptyListOverFalsyKeySeedsDefault | App.tsx:58-81 | an empty list is never written over an absent key, so the next load seeds the default user |
| Persistence.SaveIdempotent | App.tsx:76-81 | saving the same list twice is the same as saving it once |
| Persistence.SaveOverStoredMirrors | App.tsx:78-79 | once the key holds a list, every save writes the current list, empty or not |
| Hex.HexDigit | components/AuthScreen.tsx:9 | every digit is a lowercase hex character |
| Hex.HexDigitInjective | components/AuthScreen.tsx:9 | distinct nibbles give distinct digits |
| Hex.ToBase16 | components/AuthScreen.tsx:9 | `toString(16)` yields at least one lowercase hex digit |
| Hex.PadStart | components/AuthScreen.tsx:9 | `padStart` reaches the target length, keeps the input as the suffix, and fills the front with the pad character |
| Hex.DigitValueOfHexDigit | components/AuthScreen.tsx:9 | each digit reads back as the nibble it was written for |
| Hex.ToBase16Value | components/AuthScreen.tsx:9 | `toString(16)` is a base-16 rendering: reading the digits back, most significant first, gives the number |
| Hex.ToBase16NoLeadingZero | components/AuthScreen.tsx:9 | `toString(16)` writes no leading zero: the first digit is `0` exactly for zero, which is why the padding is needed |
| Hex.ByteToBase16 | components/AuthScreen.tsx:9 | `toString(16)` of a byte has one or two digits |
| Hex.Base16OfByte | components/AuthScreen.tsx:9 | for a byte, the general base-16 rendering gives one digit below 16 and the two nibble digits from 16 on |
| Hex.ByteToHex | components/AuthScreen.tsx:9 | each byte becomes exactly two lowercase hex digits, high nibble first, zero-padded |
| Hex.PairValue | components/AuthScreen.tsx:9 | two digits read back as 16 times the first nibble plus the second |
| Hex.ByteToHexValue | components/AuthScreen.tsx:9 | the padded two-digit rendering of a byte reads back as the byte |
| Hex.Pieces | components/AuthScreen.tsx:9 | the `map` step yields one piece per byte: its two nibble digits |
| Hex.JoinSnoc | components/AuthScreen.tsx:9 | `join('')` of one more piece appends that piece |
| Hex.JoinPairsLength | components/AuthScreen.tsx:9 | joining two-character pieces gives twice as many characters |
| Hex.JoinPairsAt | components/AuthScreen.tsx:9 | piece i of two-character pieces sits at positions 2i and 2i+1 of the join |
| Hex.Join | components/AuthScreen.tsx:9 | `join('')` of no pieces is the empty string and of one piece is that piece; Hex.JoinSnoc extends this to any number of pieces |
| Hex.ToHex | components/AuthScreen.tsx:9 | n bytes render as 2n characters |
| Hex.ToHexAt | components/AuthScreen.tsx:9 | byte i is rendered at positions 2i and 2i+1 |
| Hex.ToHexDigits | components/AuthScreen.tsx:9 | byte i is rendered at positions 2i and 2i+1, for every i at once |
| Hex.JoinIsLowerHex | components/AuthScreen.tsx:9 | pieces made of lowercase hex digits join to lowercase hex digits |
| Hex.ToHexIsLowerHex | components/AuthScreen.tsx:9 | every character of the rendering is a lowercase hex digit |
| Hex.ToHexInjective | components/AuthScreen.tsx:9 | two digests render alike exactly when they are equal |
| Hex.DigestHexLength | components/AuthScreen.tsx:7-9 | a 32-byte SHA-256 digest renders as 64 characters |
| Auth.HashString | components/AuthScreen.tsx:4-10 | `hashString` succeeds exactly when the digest does, and yields the 64-character hex of the digest |
| Auth.ValidateSetup | components/AuthScreen.tsx:35-46 | the first failing check is reported: empty, then shorter than 4 code units, then confirmation mismatch; no error exactly when the password is long enough and confirmed |
| Auth.Submit | components/AuthScreen.tsx:24-56 | setup mode reports a validation error before any hashing, a hash failure as the generic error, and otherwise hands on the hex digest; login succeeds exactly when the hex digest equals the stored hash, a computed digest whose hex differs from the stored hash is the wrong-password error, and a hash failure is the generic error |
| Auth.ScreenAfter | components/AuthScreen.tsx:57-62 | after any submit the loading flag is cleared, and an error shows exactly when the submit was rejected; Auth.WrongPasswordShowsError uses it |
| Auth.LoginAfterSetup | components/AuthScreen.tsx:34-55 | a setup with a valid, confirmed p whose hashing succeeds stores a hash, and a later login with q succeeds exactly when q has the same digest as p; the digest is not assumed injective |
| Auth.WrongPasswordShowsError | components/AuthScreen.tsx:50-62 | a login whose digest differs from the stored hash ends with the wrong-password message shown and loading cleared |
| Auth.SetupAndLoginExample | components/AuthScreen.tsx:34-55 | "abc" is too short, "abcd" with a different confirmation mismatches, "abcd" twice stores a 64-character hash, and that hash accepts "abcd" and rejects "wrong" |
| Auth.LengthCountsCodeUnits | components/AuthScreen.tsx:35-42 | the empty check comes first, and two characters outside the Basic Multilingual Plane pass the 4-unit minimum |
| Gate.PhaseOf | App.tsx:233-247 | the screen is loading exactly while the hash is unread, setup exactly when no hash is stored and the gate is closed, login when a hash is stored and the gate is closed, and the app when the gate is open |
| Gate.ReadHash | App.tsx:41-44 | the mount effect records the stored hash, or its absence, and leaves the flag alone; Gate.StartupPhases and App.Boot use it |
| Gate.PasswordSet | App.tsx:223-227 | setting a password keeps the new hash and opens the app; App.SubmitKeepsInv and App.LoginAfterLogout use it |
| Gate.AuthSuccess | App.tsx:244 | a successful login opens the gate and keeps the hash; App.SubmitKeepsInv and App.LoginAfterLogout use it |
| Gate.Logout | App.tsx:229-231 | logout closes the gate and keeps the hash; Gate.LogoutLandsOnLogin uses it |
| Gate.StartupPhases | App.tsx:33-44 | the app starts loading, then shows setup without a stored hash and login with one |
| Gate.LogoutLandsOnLogin | App.tsx:229-247 | logging out of the app shows the login screen, never setup |
| App.Boot | App.tsx:33-44 | mount starts with no users and shows setup or login according to the password key, in a state that satisfies the invariant |
| App.OnAuthenticated | App.tsx:47-81 | the commit that opens the gate loads the users key, and afterwards the key holds exactly the loaded list, whatever it held before |
| App.StoredHash | App.tsx:243 | the password screen gets `null` exactly when no hash is set, and otherwise the gate's hash; App.LoginAfterLogout uses it |
| App.SubmitPassword | App.tsx:223-247 | in setup the app opens exactly when validation passes and hashing succeeds, and then the hex digest is stored; in login it opens exactly when the hex digest matches and the hash is kept; once open, the data is the load of the users key and the key mirrors it; a rejected submit changes nothing |
| App.Apply | App.tsx:262 | picking a user in the selector keeps the list and makes the active user the first one carrying the picked id |
| App.Logout | App.tsx:229-231 | logout keeps the data and the storage and closes the gate; App.LogoutKeepsInv and App.LoginAfterLogout use it |
| App.Act | App.tsx:76-81 | a handler followed by its save keeps the gate, applies the handler, keeps the key mirroring the users, and writes nothing when the list is unchanged |
| App.SubmitKeepsInv | App.tsx:223-247 | a password submit keeps the invariant |
| App.LogoutKeepsInv | App.tsx:229-231 | logout keeps the invariant |
| App.ActKeepsInv | App.tsx:76-81 | every handler with its save keeps the invariant |
| App.LoginAfterLogout | App.tsx:223-247 | after setup with p and a logout, the login screen is shown, and q opens the app exactly when it has p's digest |
| App.FirstSetupSeedsDefault | App.tsx:58-67 | the first setup on empty storage shows one default portfolio and persists it |
| App.UnparsableSlotIsOverwritten | App.tsx:69-80 | unparsable text in the users key is replaced by an empty list when the gate opens |

## Left out

- Rendering is not modelled: JSX, the modals, the tables, the icons and `formatCurrency`.
  Currency and date formatting depend on locale number formatting.
- Modal and form UI state is not modelled. Opening and closing modals, resetting forms after a
  submit, and `handleOpenUpdateModal` only move UI state. The selected trade id is a parameter
  of the daily entry instead.
- The `currentlyUpdatingEvent` memo is not modelled; it only feeds a modal title.
- `JSON.stringify` and `JSON.parse` are not modelled. The users key holds a list or
  unparsable text directly.
- Text that parses as JSON but is not a list (such as `{}`) is not modelled.
- Non-finite numbers, which JSON would turn into `null`, are not modelled.
- IEEE floating point is not modelled; numbers are `real`. An empty numeric form field is
  `None`, and `parseFloat` of a filled field is taken as its value.
- SHA-256 and `TextEncoder` are a foreign asynchronous call. They are the parameter
  `Auth.Hasher`, with `None` for a rejected promise. The model assumes nothing about it, not
  even injectivity.
- Ids drawn from `Date.now()` are parameters, so duplicate ids are possible. `window.confirm`
  is a boolean parameter.
- React scheduling is replaced by explicit sequential steps, and concurrent tabs are not
  modelled. In `handleDeleteCurrentUser`, the closure's `users` and the updater's `prev` are
  the same list in a sequential model.
- App.Act: it saves after every handler, while the source saves only when the handler
  produced a new list. The two agree in every state that satisfies `App.Inv`, and the
  "writes nothing when the list is unchanged" clause of its contract states this.
- A share link, a `sellPrice` trade field and a migration of stored data are not modelled.
  App.tsx, types.ts and components/AuthScreen.tsx contain none of them; the only traces are the
  `sellPrice` column at components/Snapshot.tsx:22 and the icon in
  components/icons/ShareIcon.tsx, neither of which is wired to any logic in those files.
- components/Snapshot.tsx:22 names a `sellPrice` column that `types.ts` does not declare. The
  model follows `types.ts`.
- Text.Utf16Length: covers well-formed text only. A JavaScript string may hold an unpaired
  surrogate, which a Dafny string (a sequence of Unicode scalar values) cannot represent, so
  the length of such a string is not modelled.
- Text.Trim: covers well-formed text only, for the same reason; trimming never touches
  surrogates, so an unpaired one would pass through unchanged in the source.
- Auth.Hasher: its input is a sequence of Unicode scalar values, so a password holding an
  unpaired surrogate is not modelled. `TextEncoder` would encode such a surrogate as U+FFFD,
  which makes distinct JavaScript strings hash alike.
- App.SubmitPassword: storage reads and writes are assumed to succeed. In the source, a
  `localStorage.setItem` that throws inside `handlePasswordSet` (App.tsx:224), for instance on
  a full quota or disabled storage, is caught by the password screen, which shows the generic
  error and leaves the gate locked. The model always opens the gate after a chosen password.
  A failing `getItem` in the load effect is likewise not modelled.

=== FILE: app.dfy ===
/** The whole app as a sequential state machine: the gate, the in-memory
    data and the storage, moved by mount, password submits, logout and the
    record-store handlers. React's effect scheduling becomes explicit steps:
    the effects that run in one commit run here one after the other, in
    declaration order. */
module App {
  import opened Types
  import Records
  import Persistence
  import Auth
  import Gate
  import Hex

  datatype State = State(gate: Gate.GateState, data: AppData, storage: Persistence.Storage)

  /** The users key holds exactly the in-memory list. */
  predicate Mirrors(s: State) {
    s.storage.usersSlot == Persistence.Stored(s.data.users)
  }

  /** The invariant every reachable state keeps: the gate's hash is the
      stored one, the gate opens only after the hash is read, and while the
      app is shown the storage mirrors the in-memory users. */
  predicate Inv(s: State) {
    && (s.gate.hash.IsSet? ==> s.storage.passwordHash == Some(s.gate.hash.hash))
    && (s.gate.hash.NotSet? ==> s.storage.passwordHash.None?)
    && (s.gate.hash.Unread? ==> !s.gate.authenticated)
    && (Gate.PhaseOf(s.gate) == Gate.Unlocked ==> Mirrors(s))
  }

  /** First render plus the mount effect: no users yet, the hash read
      from the password key. */
  function Boot(storage: Persistence.Storage): (s: State)
    ensures s.data == AppData([], None) && s.storage == storage
    ensures Gate.PhaseOf(s.gate) == if storage.passwordHash.None? then Gate.Setup else Gate.Login
    ensures Inv(s)
  {
    State(Gate.ReadHash(Gate.Initial, storage.passwordHash), AppData([], None), storage)
  }

  /** The commit in which the gate opens: the load effect reads the users
      key; the save effect of that same commit still sees the users of the
      previous render; the render with the loaded users saves again. After
      it the storage mirrors the loaded users, whatever the key held. */
  function OnAuthenticated(s: State, defaultId: string): (s': State)
    ensures s'.gate == s.gate && s'.storage.passwordHash == s.storage.passwordHash
    ensures s'.data == Persistence.Load(s.data, s.storage.usersSlot, true, defaultId)
    ensures Mirrors(s')
  {
    var slot := s.storage.usersSlot;
    var loaded := Persistence.Load(s.data, slot, true, defaultId);
    var staleSave := Persistence.Save(slot, s.data.users, true);
    var save := Persistence.Save(staleSave, loaded.users, true);
    s.(data := loaded, storage := s.storage.(usersSlot := save))
  }

  /** The hash the password screen receives: `null` in setup mode. */
  function StoredHash(g: Gate.GateState): (r: Option<string>)
    ensures r.None? <==> !g.hash.IsSet?
    ensures r.Some? ==> g.hash == Gate.IsSet(r.value)
  {
    if g.hash.IsSet? then Some(g.hash.hash) else None
  }

  /** A submit on the password screen, which is shown only in the setup and
      login phases. A rejected submit changes nothing; a chosen password is
      written to the password key and opens the gate; a matching login
      opens the gate. */
  function SubmitPassword(s: State, password: string, confirm: string, hasher: Auth.Hasher, defaultId: string): (s': State)
    requires Gate.PhaseOf(s.gate) == Gate.Setup || Gate.PhaseOf(s.gate) == Gate.Login
    ensures Gate.PhaseOf(s.gate) == Gate.Setup ==>
      (Gate.PhaseOf(s'.gate) == Gate.Unlocked <==>
        Auth.ValidateSetup(password, confirm).None? && hasher(password).Some?)
    ensures Gate.PhaseOf(s.gate) == Gate.Setup && Gate.PhaseOf(s'.gate) == Gate.Unlocked ==>
      && s'.storage.passwordHash == Some(Hex.ToHex(hasher(password).value))
      && s'.gate.hash == Gate.IsSet(Hex.ToHex(hasher(password).value))
    ensures Gate.PhaseOf(s.gate) == Gate.Login ==>
      && s'.gate.hash == s.gate.hash
      && s'.storage.passwordHash == s.storage.passwordHash
      && (Gate.PhaseOf(s'.gate) == Gate.Unlocked <==>
            hasher(password).Some? && Hex.ToHex(hasher(password).value) == s.gate.hash.hash)
    ensures Gate.PhaseOf(s'.gate) != Gate.Unlocked ==> s' == s
    ensures Gate.PhaseOf(s'.gate) == Gate.Unlocked ==>
      && s'.data == Persistence.Load(s.data, s.storage.usersSlot, true, defaultId)
      && Mirrors(s')
  {
    match Auth.Submit(StoredHash(s.gate), password, confirm, hasher)
    case Rejected(_) => s
    case PasswordChosen(h) =>
      OnAuthenticated(s.(gate := Gate.PasswordSet(s.gate, h),
                         storage := s.storage.(passwordHash := Some(h))), defaultId)
    case LoggedIn =>
      OnAuthenticated(s.(gate := Gate.AuthSuccess(s.gate)), defaultId)
  }

  /** `handleLogout`: only the flag changes; the data stays in memory and
      both keys stay as they are. */
  function Logout(s: State): (s': State)
    ensures s'.data == s.data && s'.storage == s.storage
    ensures s'.gate.hash == s.gate.hash && !s'.gate.authenticated
  {
    s.(gate := Gate.Logout(s.gate))
  }

  /** The handlers reachable from the app screen. */
  datatype Action =
    | AddReward(rewardForm: Records.RewardForm, rewardId: string)
    | AddTrade(tradeForm: Records.TradeForm, tradeId: string)
    | DailyEntry(selectedTrade: Option<string>, volume: Option<real>, fee: Option<real>)
    | DeleteReward(deletedRewardId: string)
    | DeleteTrade(deletedTradeId: string)
    | AddUser(name: string, userId: string)
    | DeleteCurrentUser(confirmed: bool)
    | SelectUser(selectedId: string)

  /** One handler on the data; `SelectUser` is the user picker's
      `setActiveUserId(e.target.value)`. */
  function Apply(data: AppData, action: Action): (r: AppData)
    ensures action.SelectUser? ==>
      && r.users == data.users
      && r.activeUserId == Some(action.selectedId)
      && Records.ActiveIndex(r) == Records.FirstIndex(data.users, action.selectedId)
  {
    match action
    case AddReward(form, id) => Records.AddReward(data, form, id)
    case AddTrade(form, id) => Records.AddTrade(data, form, id)
    case DailyEntry(t, v, f) => Records.DailyEntry(data, t, v, f)
    case DeleteReward(id) => Records.DeleteReward(data, id)
    case DeleteTrade(id) => Records.DeleteTrade(data, id)
    case AddUser(name, id) => Records.AddUser(data, name, id)
    case DeleteCurrentUser(ok) => Records.DeleteCurrentUser(data, ok)
    case SelectUser(id) => data.(activeUserId := Some(id))
  }

  /** One handler followed by the save effect. The source runs the effect
      only when the handler produced a new list; saving an unchanged list
      over a mirroring key writes what is already there, so saving after
      every handler is the same in every state that keeps `Inv`. */
  function Act(s: State, action: Action): (s': State)
    requires Gate.PhaseOf(s.gate) == Gate.Unlocked
    ensures s'.gate == s.gate && s'.storage.passwordHash == s.storage.passwordHash
    ensures s'.data == Apply(s.data, action)
    ensures Mirrors(s) ==> Mirrors(s')
    ensures Mirrors(s) && s'.data.users == s.data.users ==> s'.storage == s.storage
  {
    var data := Apply(s.data, action);
    s.(data := data, storage := s.storage.(usersSlot := Persistence.Save(s.storage.usersSlot, data.users, true)))
  }

  lemma SubmitKeepsInv(s: State, password: string, confirm: string, hasher: Auth.Hasher, defaultId: string)
    requires Inv(s)
    requires Gate.PhaseOf(s.gate) == Gate.Setup || Gate.PhaseOf(s.gate) == Gate.Login
    ensures Inv(SubmitPassword(s, password, confirm, hasher, defaultId))
  {
  }

  lemma LogoutKeepsInv(s: State)
    requires Inv(s)
    ensures Inv(Logout(s))
  {
  }

  lemma ActKeepsInv(s: State, action: Action)
    requires Inv(s) && Gate.PhaseOf(s.gate) == Gate.Unlocked
    ensures Inv(Act(s, action))
  {
  }

  /** After setting password `p` and logging out, a login with `q` opens
      the app exactly when `q` has the digest `p` had: the stored hash
      survives logout. */
  lemma LoginAfterLogout(storage: Persistence.Storage, p: string, q: string, hasher: Auth.Hasher, defaultId: string)
    requires storage.passwordHash.None?
    requires Auth.ValidateSetup(p, p).None? && hasher(p).Some?
    ensures var s0 := Boot(storage);
      var s1 := SubmitPassword(s0, p, p, hasher, defaultId);
      var s2 := Logout(s1);
      && Gate.PhaseOf(s1.gate) == Gate.Unlocked
      && Gate.PhaseOf(s2.gate) == Gate.Login
      && (Gate.PhaseOf(SubmitPassword(s2, q, "", hasher, defaultId).gate) == Gate.Unlocked <==>
            hasher(q).Some? && hasher(q) == hasher(p))
  {
    if hasher(q).Some? {
      Hex.ToHexInjective(hasher(q).value, hasher(p).value);
    }
  }

  /** A first login on a fresh storage shows one default portfolio and
      persists it. */
  lemma FirstSetupSeedsDefault(p: string, hasher: Auth.Hasher, defaultId: string)
    requires Auth.ValidateSetup(p, p).None? && hasher(p).Some?
    ensures var s := SubmitPassword(Boot(Persistence.Storage(Persistence.Absent, None)), p, p, hasher, defaultId);
      && s.data == AppData([Persistence.DefaultUser(defaultId)], Some(defaultId))
      && s.storage.usersSlot == Persistence.Stored([Persistence.DefaultUser(defaultId)])
  {
  }

  /** Text in the users key that does not parse is replaced by an empty
      list on the first authenticated commit. */
  lemma UnparsableSlotIsOverwritten(s: State, text: string, defaultId: string)
    requires text != ""
    requires s.storage.usersSlot == Persistence.Unparsable(text)
    ensures OnAuthenticated(s, defaultId).storage.usersSlot == Persistence.Stored([])
  {
  }
}

=== FILE: auth.dfy ===
/** The password screen's submit handler. In setup mode (no stored hash)
    the password is checked for emptiness, then for a minimum length, then
    against its confirmation, and only the first failure is reported; a
    valid password is hashed and handed on to be stored. In login mode the
    entered password is hashed and compared with the stored hash. The gate
    is a deterrent, not a security boundary. */
module Auth {
  import opened Types
  import Text
  import Hex

  /** A SHA-256 digest: 32 bytes. */
  type Digest = d: seq<Hex.Byte> | |d| == 32 witness seq(32, _ => 0)

  /** `crypto.subtle.digest('SHA-256', new TextEncoder().encode(s))`,
      with `None` for a rejected promise. It is a parameter: the model
      assumes nothing of it, not even injectivity. */
  type Hasher = string -> Option<Digest>

  const MinPasswordLength: nat := 4

  /** `hashString`: the digest rendered as lowercase hex. */
  function HashString(hasher: Hasher, input: string): (r: Option<string>)
    ensures r.Some? <==> hasher(input).Some?
    ensures r.Some? ==> |r.value| == 64 && r.value == Hex.ToHex(hasher(input).value)
  {
    match hasher(input)
    case None => None
    case Some(d) => Some(Hex.ToHex(d))
  }

  datatype AuthError =
    | EmptyPassword    // setup: nothing entered
    | TooShort         // setup: fewer than four UTF-16 code units
    | Mismatch         // setup: confirmation differs
    | WrongPassword    // login: digest differs from the stored one
    | HashFailure      // hashing threw: the generic error

  /** What a submit does: report an error, hand a new hash on to be stored,
      or report a successful login. */
  datatype Outcome = Rejected(error: AuthError) | PasswordChosen(hash: string) | LoggedIn

  /** The setup checks in their order; `None` when all pass. */
  function ValidateSetup(password: string, confirm: string): (r: Option<AuthError>)
    ensures r == Some(EmptyPassword) <==> password == ""
    ensures r == Some(TooShort) <==> password != "" && Text.Utf16Length(password) < MinPasswordLength
    ensures r == Some(Mismatch) <==>
      password != "" && Text.Utf16Length(password) >= MinPasswordLength && password != confirm
    ensures r == None <==>
      Text.Utf16Length(password) >= MinPasswordLength && password == confirm
  {
    if password == "" then Some(EmptyPassword)
    else if Text.Utf16Length(password) < MinPasswordLength then Some(TooShort)
    else if password != confirm then Some(Mismatch)
    else None
  }

  /** `handleSubmit`; `storedHash` is the `passwordHash` prop, `None` being
      `null`, which selects setup mode. */
  function Submit(storedHash: Option<string>, password: string, confirm: string, hasher: Hasher): (r: Outcome)
    // setup mode
    ensures storedHash.None? ==> !r.LoggedIn?
    ensures storedHash.None? && ValidateSetup(password, confirm).Some? ==>
      r == Rejected(ValidateSetup(password, confirm).value)
    ensures storedHash.None? && ValidateSetup(password, confirm).None? ==>
      match hasher(password)
      case None => r == Rejected(HashFailure)
      case Some(d) => r == PasswordChosen(Hex.ToHex(d))
    // login mode
    ensures storedHash.Some? ==> !r.PasswordChosen?
    ensures storedHash.Some? ==>
      (r == LoggedIn <==> hasher(password).Some? && Hex.ToHex(hasher(password).value) == storedHash.value)
    ensures storedHash.Some? && hasher(password).None? ==> r == Rejected(HashFailure)
    ensures storedHash.Some? && hasher(password).Some? && Hex.ToHex(hasher(password).value) != storedHash.value ==>
      r == Rejected(WrongPassword)
    ensures storedHash.Some? && r.Rejected? ==> r.error == WrongPassword || r.error == HashFailure
  {
    match storedHash
    case None =>
      (match ValidateSetup(password, confirm)
       case Some(e) => Rejected(e)
       case None =>
         match HashString(hasher, password)
         case None => Rejected(HashFailure)
         case Some(h) => PasswordChosen(h))
    case Some(stored) =>
      match HashString(hasher, password)
      case None => Rejected(HashFailure)
      case Some(h) => if h == stored then LoggedIn else Rejected(WrongPassword)
  }

  /** The screen's own state after a submit: `finally` always clears the
      loading flag, and an error shows exactly when the submit was
      rejected. */
  datatype Screen = Screen(error: Option<AuthError>, isLoading: bool)

  function ScreenAfter(outcome: Outcome): (s: Screen)
    ensures !s.isLoading
    ensures s.error.Some? <==> outcome.Rejected?
    ensures outcome.Rejected? ==> s.error == Some(outcome.error)
  {
    Screen(if outcome.Rejected? then Some(outcome.error) else None, false)
  }

  /** After a setup with `p`, a login with `q` succeeds exactly when `q`
      hashes to the same digest as `p`. Passwords with colliding digests
      are indistinguishable; no more is claimed, since the digest is not
      assumed injective. */
  lemma LoginAfterSetup(p: string, confirm: string, q: string, confirm2: string, hasher: Hasher)
    requires ValidateSetup(p, confirm).None? && hasher(p).Some?
    ensures Submit(None, p, confirm, hasher).PasswordChosen?
    ensures var stored := Submit(None, p, confirm, hasher).hash;
      Submit(Some(stored), q, confirm2, hasher) == LoggedIn <==>
        hasher(q).Some? && hasher(q) == hasher(p)
  {
    var d := hasher(p).value;
    if hasher(q).Some? {
      Hex.ToHexInjective(hasher(q).value, d);
    }
  }

  /** A login whose digest differs from the stored hash ends with the
      wrong-password message shown and the button enabled again. */
  lemma WrongPasswordShowsError(stored: string, password: string, confirm: string, hasher: Hasher)
    requires hasher(password).Some? && Hex.ToHex(hasher(password).value) != stored
    ensures ScreenAfter(Submit(Some(stored), password, confirm, hasher)) == Screen(Some(WrongPassword), false)
  {
  }

  /** Setup rejects "abc" as too short, rejects "abcd" with a different
      confirmation, and accepts "abcd" twice, storing a 64-character hash
      that the same password then logs in with and "wrong" does not. */
  lemma SetupAndLoginExample(hasher: Hasher)
    requires hasher("abcd").Some? && hasher("wrong").Some?
    requires hasher("wrong") != hasher("abcd")
    ensures Submit(None, "abc", "abc", hasher) == Rejected(TooShort)
    ensures Submit(None, "abcd", "abce", hasher) == Rejected(Mismatch)
    ensures Submit(None, "abcd", "abcd", hasher).PasswordChosen?
    ensures var h := Submit(None, "abcd", "abcd", hasher).hash;
      && |h| == 64
      && Submit(Some(h), "abcd", "", hasher) == LoggedIn
      && Submit(Some(h), "wrong", "", hasher) == Rejected(WrongPassword)
  {
    Text.Utf16LengthOfBmp("abc");
    Text.Utf16LengthOfBmp("abcd");
    LoginAfterSetup("abcd", "abcd", "wrong", "", hasher);
  }

  /** The length rule counts UTF-16 code units: two characters outside the
      Basic Multilingual Plane already make a long-enough password, while
      the empty-password check still comes first. */
  lemma LengthCountsCodeUnits(hasher: Hasher)
    ensures Submit(None, "", "", hasher) == Rejected(EmptyPassword)
    ensures ValidateSetup("\U{1F600}\U{1F600}", "\U{1F600}\U{1F600}").None?
  {
    assert Text.Utf16Length("\U{1F600}\U{1F600}") == 4 by {
      assert "\U{1F600}\U{1F600}"[1..] == "\U{1F600}";
      assert "\U{1F600}"[1..] == "";
    }
  }
}

=== FILE: gate.dfy ===
/** The app-level gate: the `passwordHash` state (not yet read, read as
    absent, or read as a string) and the `isAuthenticated` flag, and the
    screen they select. */
module Gate {
  import opened Types

  /** `passwordHash`: `undefined` before the storage is read, `null` when
      no password is stored, else the stored hex digest. */
  datatype HashState = Unread | NotSet | IsSet(hash: string)

  datatype GateState = GateState(hash: HashState, authenticated: bool)

  /** The screen the app renders. */
  datatype Phase = Loading | Setup | Login | Unlocked

  const Initial: GateState := GateState(Unread, false)

  /** The render rule: a hash not yet read shows the loading screen, an
      unauthenticated gate shows the password screen (in setup mode exactly
      when no hash is stored), and an authenticated one shows the app. */
  function PhaseOf(g: GateState): (p: Phase)
    ensures p == Loading <==> g.hash.Unread?
    ensures p == Setup <==> g.hash.NotSet? && !g.authenticated
    ensures p == Login <==> g.hash.IsSet? && !g.authenticated
    ensures p == Unlocked <==> !g.hash.Unread? && g.authenticated
  {
    if g.hash.Unread? then Loading
    else if !g.authenticated then (if g.hash.NotSet? then Setup else Login)
    else Unlocked
  }

  /** The mount effect: `setPasswordHash(localStorage.getItem(key))`. */
  function ReadHash(g: GateState, stored: Option<string>): (g': GateState)
    ensures g'.authenticated == g.authenticated
    ensures stored.None? ==> g'.hash == NotSet
    ensures stored.Some? ==> g'.hash == IsSet(stored.value)
  {
    g.(hash := match stored case None => NotSet case Some(h) => IsSet(h))
  }

  /** `handlePasswordSet`: the new hash is kept and the gate opens. */
  function PasswordSet(g: GateState, newHash: string): (g': GateState)
    ensures PhaseOf(g') == Unlocked && g'.hash == IsSet(newHash)
  {
    GateState(IsSet(newHash), true)
  }

  /** `onAuthSuccess`: the gate opens, the hash is kept. */
  function AuthSuccess(g: GateState): (g': GateState)
    ensures g'.hash == g.hash && g'.authenticated
  {
    g.(authenticated := true)
  }

  /** `handleLogout`: the gate closes and the hash is kept, so the next
      screen is the login screen, never setup. */
  function Logout(g: GateState): (g': GateState)
    ensures g'.hash == g.hash && !g'.authenticated
  {
    g.(authenticated := false)
  }

  /** From the initial state, reading the storage leads to setup when no
      hash is stored and to login when one is. */
  lemma StartupPhases(stored: Option<string>)
    ensures PhaseOf(Initial) == Loading
    ensures PhaseOf(ReadHash(Initial, stored)) == if stored.None? then Setup else Login
  {
  }

  /** Logging out of the app lands on the login screen once a hash is
      stored. */
  lemma LogoutLandsOnLogin(g: GateState)
    requires PhaseOf(g) == Unlocked && g.hash.IsSet?
    ensures PhaseOf(Logout(g)) == Login
  {
  }
}

=== FILE: hex.dfy ===
/** The hex-rendering half of the password digest: every byte of the
    digest is written with `toString(16)`, left-padded to two characters
    with `'0'`, and the pieces are joined. */
module Hex {

  type Byte = b: int | 0 <= b < 256

  /** The lowercase hexadecimal digit for `d`. */
  function HexDigit(d: int): (c: char)
    requires 0 <= d < 16
    ensures IsLowerHexDigit(c)
  {
    if d < 10 then (48 + d) as char else (87 + d) as char
  }

  /** The characters `toString(16)` emits: `0`-`9` and `a`-`f`. */
  predicate IsLowerHexDigit(c: char) {
    '0' <= c <= '9' || 'a' <= c <= 'f'
  }

  lemma HexDigitInjective(d: int, e: int)
    requires 0 <= d < 16 && 0 <= e < 16
    ensures HexDigit(d) == HexDigit(e) <==> d == e
  {
  }

  /** `n.toString(16)` for a non-negative integer: its base-16 digits with
      no leading zero (`"0"` for zero). */
  function ToBase16(n: nat): (r: string)
    ensures 1 <= |r|
    ensures forall i :: 0 <= i < |r| ==> IsLowerHexDigit(r[i])
    decreases n
  {
    if n < 16 then [HexDigit(n)] else ToBase16(n / 16) + [HexDigit(n % 16)]
  }

  /** `s.padStart(len, pad)` with a one-character pad: prefixes copies of
      `pad` until the string is `len` long; longer strings are kept. */
  function PadStart(s: string, len: nat, pad: char): (r: string)
    ensures |r| == if |s| >= len then |s| else len
    ensures r[|r| - |s|..] == s
    ensures forall i :: 0 <= i < |r| - |s| ==> r[i] == pad
  {
    if |s| >= len then s else seq(len - |s|, _ => pad) + s
  }

  /** `b.toString(16)` for a byte: one digit below 16, two from 16 on. */
  function ByteToBase16(b: Byte): (r: string)
    ensures 1 <= |r| <= 2
  {
    if b < 16 then [HexDigit(b)] else [HexDigit(b / 16), HexDigit(b % 16)]
  }

  /** For a byte, the general base-16 rendering is `ByteToBase16`. */
  lemma Base16OfByte(b: Byte)
    ensures ToBase16(b) == ByteToBase16(b)
  {
    if b >= 16 {
      assert ToBase16(b / 16) == [HexDigit(b / 16)];
    }
  }

  /** The value of one lowercase hex digit. */
  function DigitValue(c: char): (v: nat)
    requires IsLowerHexDigit(c)
    ensures v < 16
  {
    if c <= '9' then (c as int) - 48 else (c as int) - 87
  }

  /** Reading a digit back gives the nibble it was written for. */
  lemma DigitValueOfHexDigit(d: int)
    requires 0 <= d < 16
    ensures DigitValue(HexDigit(d)) == d
  {
  }

  predicate AllLowerHex(s: string) {
    forall i :: 0 <= i < |s| ==> IsLowerHexDigit(s[i])
  }

  /** Reads a string of lowercase hex digits as a base-16 number, most
      significant digit first. */
  function HexValue(s: string): nat
    requires AllLowerHex(s)
  {
    if s == [] then 0 else HexValue(s[..|s| - 1]) * 16 + DigitValue(s[|s| - 1])
  }

  /** `toString(16)` is a base-16 rendering: reading it back gives the
      number. */
  lemma {:induction false} ToBase16Value(n: nat)
    ensures HexValue(ToBase16(n)) == n
    decreases n
  {
    if n >= 16 {
      var p := ToBase16(n / 16);
      assert ToBase16(n) == p + [HexDigit(n % 16)];
      assert (p + [HexDigit(n % 16)])[..|p|] == p;
      ToBase16Value(n / 16);
    }
  }

  /** `toString(16)` writes no leading zero: its first digit is `0` only
      for zero itself. */
  lemma {:induction false} ToBase16NoLeadingZero(n: nat)
    ensures ToBase16(n)[0] == '0' <==> n == 0
    decreases n
  {
    if n >= 16 {
      ToBase16NoLeadingZero(n / 16);
      assert ToBase16(n)[0] == ToBase16(n / 16)[0];
    }
  }

  /** `b.toString(16).padStart(2, '0')`: always exactly two digits, the
      high nibble then the low nibble. */
  function ByteToHex(b: Byte): (r: string)
    ensures r == [HexDigit(b / 16), HexDigit(b % 16)]
  {
    PadStart(ByteToBase16(b), 2, '0')
  }

  /** Two digits read back as high nibble times 16 plus low nibble. */
  lemma PairValue(d: int, e: int)
    requires 0 <= d < 16 && 0 <= e < 16
    ensures AllLowerHex([HexDigit(d), HexDigit(e)])
    ensures HexValue([HexDigit(d), HexDigit(e)]) == 16 * d + e
  {
    var s := [HexDigit(d), HexDigit(e)];
    DigitValueOfHexDigit(d);
    DigitValueOfHexDigit(e);
    assert s[..1] == [HexDigit(d)];
    assert s[..1][..0] == [];
    assert HexValue(s[..1]) == d;
    assert HexValue(s) == HexValue(s[..1]) * 16 + e;
  }

  /** Reading the two digits back gives the byte. */
  lemma ByteToHexValue(b: Byte)
    ensures AllLowerHex(ByteToHex(b)) && HexValue(ByteToHex(b)) == b
  {
    PairValue(b / 16, b % 16);
    assert ByteToHex(b) == [HexDigit(b / 16), HexDigit(b % 16)];
    assert 16 * (b / 16) + b % 16 == b;
  }

  /** The `map` step: every byte rendered by `ByteToHex`. */
  function Pieces(bytes: seq<Byte>): (r: seq<string>)
    ensures |r| == |bytes|
    ensures forall i :: 0 <= i < |bytes| ==> r[i] == [HexDigit(bytes[i] / 16), HexDigit(bytes[i] % 16)]
  {
    seq(|bytes|, i requires 0 <= i < |bytes| => ByteToHex(bytes[i]))
  }

  /** `pieces.join('')`. */
  function Join(pieces: seq<string>): (r: string)
    ensures pieces == [] ==> r == ""
    ensures |pieces| == 1 ==> r == pieces[0]
  {
    if pieces == [] then "" else Join(pieces[..|pieces| - 1]) + pieces[|pieces| - 1]
  }

  predicate AllPairs(pieces: seq<string>) {
    forall i :: 0 <= i < |pieces| ==> |pieces[i]| == 2
  }

  /** Joining one more piece appends it. */
  lemma JoinSnoc(init: seq<string>, last: string)
    ensures Join(init + [last]) == Join(init) + last
  {
    assert (init + [last])[..|init + [last]| - 1] == init;
  }

  /** Two-character pieces join to twice as many characters. */
  lemma {:induction false} JoinPairsLength(pieces: seq<string>)
    requires AllPairs(pieces)
    ensures |Join(pieces)| == 2 * |pieces|
  {
    if pieces != [] {
      var init, last := pieces[..|pieces| - 1], pieces[|pieces| - 1];
      assert pieces == init + [last];
      JoinSnoc(init, last);
      JoinPairsLength(init);
    }
  }

  /** Piece `i` of two-character pieces sits at positions `2i` and `2i + 1`
      of the join. */
  lemma {:induction false} JoinPairsAt(pieces: seq<string>, i: nat)
    requires AllPairs(pieces) && i < |pieces|
    ensures |Join(pieces)| == 2 * |pieces|
    ensures Join(pieces)[2 * i] == pieces[i][0] && Join(pieces)[2 * i + 1] == pieces[i][1]
  {
    var init, last := pieces[..|pieces| - 1], pieces[|pieces| - 1];
    assert pieces == init + [last];
    JoinSnoc(init, last);
    JoinPairsLength(init);
    if i < |init| {
      JoinPairsAt(init, i);
      assert pieces[i] == init[i];
    }
  }

  /** `bytes.map(b => b.toString(16).padStart(2, '0')).join('')`. */
  function ToHex(bytes: seq<Byte>): (r: string)
    ensures |r| == 2 * |bytes|
  {
    JoinPairsLength(Pieces(bytes));
    Join(Pieces(bytes))
  }

  /** Byte `i` of the input is rendered at positions `2i` and `2i + 1`. */
  lemma ToHexAt(bytes: seq<Byte>, i: nat)
    requires i < |bytes|
    ensures ToHex(bytes)[2 * i] == HexDigit(bytes[i] / 16)
    ensures ToHex(bytes)[2 * i + 1] == HexDigit(bytes[i] % 16)
  {
    JoinPairsAt(Pieces(bytes), i);
  }

  lemma ToHexDigits(bytes: seq<Byte>)
    ensures forall i :: 0 <= i < |bytes| ==> ToHex(bytes)[2 * i] == HexDigit(bytes[i] / 16)
    ensures forall i :: 0 <= i < |bytes| ==> ToHex(bytes)[2 * i + 1] == HexDigit(bytes[i] % 16)
  {
    forall i | 0 <= i < |bytes|
      ensures ToHex(bytes)[2 * i] == HexDigit(bytes[i] / 16)
      ensures ToHex(bytes)[2 * i + 1] == HexDigit(bytes[i] % 16)
    {
      ToHexAt(bytes, i);
    }
  }

  /** Pieces made of lowercase hex digits join to lowercase hex digits. */
  lemma {:induction false} JoinIsLowerHex(pieces: seq<string>)
    requires forall i, k :: 0 <= i < |pieces| && 0 <= k < |pieces[i]| ==> IsLowerHexDigit(pieces[i][k])
    ensures forall j :: 0 <= j < |Join(pieces)| ==> IsLowerHexDigit(Join(pieces)[j])
  {
    if pieces != [] {
      var init, last := pieces[..|pieces| - 1], pieces[|pieces| - 1];
      assert pieces == init + [last];
      JoinSnoc(init, last);
      JoinIsLowerHex(init);
      var r := Join(init);
      forall j | 0 <= j < |r + last| ensures IsLowerHexDigit((r + last)[j]) {
        if j >= |r| {
          assert (r + last)[j] == pieces[|pieces| - 1][j - |r|];
        }
      }
    }
  }

  /** Every character of the rendering is a lowercase hex digit. */
  lemma ToHexIsLowerHex(bytes: seq<Byte>)
    ensures forall j :: 0 <= j < |ToHex(bytes)| ==> IsLowerHexDigit(ToHex(bytes)[j])
  {
    var pieces := Pieces(bytes);
    forall i, k | 0 <= i < |pieces| && 0 <= k < |pieces[i]| ensures IsLowerHexDigit(pieces[i][k]) {
      var d, e := HexDigit(bytes[i] / 16), HexDigit(bytes[i] % 16);
      assert pieces[i] == [d, e];
      if k == 0 {
        assert pieces[i][k] == d;
      } else {
        assert pieces[i][k] == e;
      }
    }
    JoinIsLowerHex(pieces);
  }

  /** The rendering is injective: two byte strings render alike exactly
      when they are equal. */
  lemma ToHexInjective(a: seq<Byte>, b: seq<Byte>)
    ensures ToHex(a) == ToHex(b) <==> a == b
  {
    if ToHex(a) == ToHex(b) {
      ToHexDigits(a);
      ToHexDigits(b);
      forall i | 0 <= i < |a| ensures a[i] == b[i] {
        HexDigitInjective(a[i] / 16, b[i] / 16);
        HexDigitInjective(a[i] % 16, b[i] % 16);
      }
    }
  }

  /** A 32-byte SHA-256 digest renders as 64 characters. */
  lemma DigestHexLength(bytes: seq<Byte>)
    requires |bytes| == 32
    ensures |ToHex(bytes)| == 64
  {
  }
}

=== FILE: persistence.dfy ===
/** The load and save effects of the app over browser-local storage. The
    storage is abstract: the users key (`portfolio-tracker-users`) is a
    `Slot` that is absent, holds a user list, or holds text that does not
    parse as one; the password key (`portfolio-tracker-password`) is an
    optional string. JSON text itself is not modelled. */
module Persistence {
  import opened Types

  /** The contents of the users key. */
  datatype Slot = Absent | Stored(users: seq<User>) | Unparsable(text: string)

  /** Both keys of the storage. */
  datatype Storage = Storage(usersSlot: Slot, passwordHash: Option<string>)

  const DefaultUserName: string := "My Portfolio"

  /** JavaScript truthiness of `localStorage.getItem(key)`: an absent key
      (`null`) and the empty string are falsy. The JSON text of a list
      (`"[]"` at the least) is never empty. */
  predicate SlotTruthy(slot: Slot)
    ensures slot.Absent? ==> !SlotTruthy(slot)
    ensures slot.Stored? ==> SlotTruthy(slot)
    ensures slot == Unparsable("") ==> !SlotTruthy(slot)
  {
    match slot
    case Absent => false
    case Stored(_) => true
    case Unparsable(text) => text != ""
  }

  /** The user seeded when nothing usable is stored; its id comes from the
      clock in the source and is a parameter here. */
  function DefaultUser(id: string): (u: User)
    ensures u.id == id && u.name == "My Portfolio"
    ensures u.alphaRewards == [] && u.tradeEvents == []
  {
    User(id, DefaultUserName, [], [])
  }

  /** The load effect, run when `isAuthenticated` becomes true:
      - a falsy slot seeds one default user and selects it;
      - a stored list replaces the users, and when it is non-empty its first
        user becomes active (an empty list keeps the previous selection and
        seeds nothing);
      - unparsable text empties the users and keeps the selection. */
  function Load(data: AppData, slot: Slot, authenticated: bool, defaultId: string): (r: AppData)
    ensures !authenticated ==> r == data
    ensures authenticated && !SlotTruthy(slot) ==>
      r == AppData([DefaultUser(defaultId)], Some(defaultId))
    ensures authenticated && slot.Stored? ==> r.users == slot.users
    ensures authenticated && slot.Stored? && slot.users != [] ==> r.activeUserId == Some(slot.users[0].id)
    ensures authenticated && SlotTruthy(slot) && !(slot.Stored? && slot.users != []) ==>
      r.activeUserId == data.activeUserId
    ensures authenticated && slot.Unparsable? && slot.text != "" ==> r == data.(users := [])
  {
    if !authenticated then data
    else if !SlotTruthy(slot) then AppData([DefaultUser(defaultId)], Some(defaultId))
    else match slot
      case Stored(users) =>
        AppData(users, if |users| > 0 then Some(users[0].id) else data.activeUserId)
      case Unparsable(_) =>
        data.(users := [])
  }

  /** The save effect, run whenever the users change: while authenticated it
      writes the list when the list is non-empty or the key already holds a
      truthy value, so an empty list is never written over an absent key. */
  function Save(slot: Slot, users: seq<User>, authenticated: bool): (r: Slot)
    ensures r == slot || r == Stored(users)
    ensures r == Stored(users) <==> slot == Stored(users) || (authenticated && (users != [] || SlotTruthy(slot)))
  {
    if authenticated && (|users| > 0 || SlotTruthy(slot)) then Stored(users) else slot
  }

  /** What was saved is what is loaded: a list written by `Save` comes back
      whole, with its first user selected when it has one. */
  lemma LoadAfterSave(data: AppData, slot: Slot, users: seq<User>, defaultId: string)
    requires users != [] || SlotTruthy(slot)
    ensures var loaded := Load(data, Save(slot, users, true), true, defaultId);
      && loaded.users == users
      && (users != [] ==> loaded.activeUserId == Some(users[0].id))
      && (users == [] ==> loaded.activeUserId == data.activeUserId)
  {
  }

  /** A stored empty list loads as no users at all: no default is seeded. */
  lemma EmptyListIsNotReseeded(data: AppData, defaultId: string)
    ensures Load(data, Stored([]), true, defaultId).users == []
  {
  }

  /** An empty list is never written over a falsy key, so the next load
      seeds the default user again. */
  lemma EmptyListOverFalsyKeySeedsDefault(data: AppData, slot: Slot, defaultId: string)
    requires !SlotTruthy(slot)
    ensures Save(slot, [], true) == slot
    ensures Load(data, Save(slot, [], true), true, defaultId).users == [DefaultUser(defaultId)]
  {
  }

  /** Saving the same list twice writes nothing new. */
  lemma SaveIdempotent(slot: Slot, users: seq<User>, authenticated: bool)
    ensures Save(Save(slot, users, authenticated), users, authenticated) == Save(slot, users, authenticated)
  {
  }

  /** Once the key holds a list, every later save mirrors the users
      exactly, empty lists included. */
  lemma SaveOverStoredMirrors(stored: seq<User>, users: seq<User>)
    ensures Save(Stored(stored), users, true) == Stored(users)
  {
  }
}

=== FILE: record_laws.dfy ===
/** Laws that tie the record-store handlers together: how each one moves
    the portfolio total, which handler undoes which, and how daily entries
    compose. */
module RecordLaws {
  import opened Types
  import opened Records
  import Text

  lemma SumSingle<T>(x: T, v: T -> real)
    ensures Sum([x], v) == v(x)
  {
    assert [x][..0] == [];
  }

  /** A change that preserves `v` on every item preserves the fold. */
  lemma {:induction false} SumMapWhere<T>(s: seq<T>, idOf: T -> string, id: string, f: T -> T, v: T -> real)
    requires forall x :: v(f(x)) == v(x)
    ensures Sum(MapWhere(s, idOf, id, f), v) == Sum(s, v)
  {
    if s != [] {
      var m := MapWhere(s, idOf, id, f);
      assert m[..|m| - 1] == MapWhere(s[..|s| - 1], idOf, id, f);
      SumMapWhere(s[..|s| - 1], idOf, id, f, v);
    }
  }

  /** Rewards [10, 5] and trades [-3, 7] give a total of 19: losses are
      subtracted, not clamped. */
  lemma TotalValueExample()
    ensures
      var u := User("u1", "My Portfolio",
                    [AlphaReward("a1", "AAA", 1.0, 10.0), AlphaReward("a2", "BBB", 2.0, 5.0)],
                    [TradeEvent("t1", "CCC", 0.0, 0.0, 0.0, -3.0), TradeEvent("t2", "DDD", 0.0, 0.0, 0.0, 7.0)]);
      TotalValue(AppData([u], Some("u1"))) == 19.0
  {
    var rs := [AlphaReward("a1", "AAA", 1.0, 10.0), AlphaReward("a2", "BBB", 2.0, 5.0)];
    var ts := [TradeEvent("t1", "CCC", 0.0, 0.0, 0.0, -3.0), TradeEvent("t2", "DDD", 0.0, 0.0, 0.0, 7.0)];
    assert rs[..1] == [rs[0]] && ts[..1] == [ts[0]];
    SumSingle(rs[0], RewardValue);
    SumSingle(ts[0], TradeValue);
  }

  /** With no user selected, or a selected id no user carries, the total
      is 0. */
  lemma TotalWithoutActiveUser(data: AppData)
    requires data.activeUserId.None? ||
             forall j :: 0 <= j < |data.users| ==> data.users[j].id != data.activeUserId.value
    ensures TotalValue(data) == 0.0
  {
  }

  /** Adding a reward raises the total by the reward's value when the
      active user exists, and leaves it otherwise. */
  lemma TotalAfterAddReward(data: AppData, form: RewardForm, newId: string)
    ensures var after := AddReward(data, form, newId);
      TotalValue(after) ==
        if RewardFormReady(data, form) && ActiveUser(data).Some?
        then TotalValue(data) + form.value.value
        else TotalValue(data)
  {
    var after := AddReward(data, form, newId);
    if RewardFormReady(data, form) {
      ActiveIndexSameIds(data, after);
      match ActiveIndex(data)
      case None =>
      case Some(i) =>
        var u := data.users[i];
        SumAppend(u.alphaRewards, [NewReward(form, newId)], RewardValue);
        SumSingle(NewReward(form, newId), RewardValue);
    }
  }

  /** Adding a trade raises the total by the trade's value when the active
      user exists, and leaves it otherwise. */
  lemma TotalAfterAddTrade(data: AppData, form: TradeForm, newId: string)
    ensures var after := AddTrade(data, form, newId);
      TotalValue(after) ==
        if TradeFormReady(data, form) && ActiveUser(data).Some?
        then TotalValue(data) + form.value.value
        else TotalValue(data)
  {
    var after := AddTrade(data, form, newId);
    if TradeFormReady(data, form) {
      ActiveIndexSameIds(data, after);
      match ActiveIndex(data)
      case None =>
      case Some(i) =>
        var u := data.users[i];
        SumAppend(u.tradeEvents, [NewTrade(form, newId)], TradeValue);
        SumSingle(NewTrade(form, newId), TradeValue);
    }
  }

  /** Deleting rewards lowers the total by exactly the values of the
      active user's rewards that carried the id. */
  lemma TotalAfterDeleteReward(data: AppData, id: string)
    ensures var after := DeleteReward(data, id);
      TotalValue(data) == TotalValue(after) +
        if Truthy(data.activeUserId) && ActiveUser(data).Some?
        then Sum(WithId(ActiveUser(data).value.alphaRewards, RewardId, id), RewardValue)
        else 0.0
  {
    var after := DeleteReward(data, id);
    if Truthy(data.activeUserId) {
      ActiveIndexSameIds(data, after);
      match ActiveIndex(data)
      case None =>
      case Some(i) =>
        SumPartition(data.users[i].alphaRewards, RewardId, id, RewardValue);
    }
  }

  /** Deleting trades lowers the total by exactly the values of the active
      user's trades that carried the id. */
  lemma TotalAfterDeleteTrade(data: AppData, id: string)
    ensures var after := DeleteTrade(data, id);
      TotalValue(data) == TotalValue(after) +
        if Truthy(data.activeUserId) && ActiveUser(data).Some?
        then Sum(WithId(ActiveUser(data).value.tradeEvents, TradeId, id), TradeValue)
        else 0.0
  {
    var after := DeleteTrade(data, id);
    if Truthy(data.activeUserId) {
      ActiveIndexSameIds(data, after);
      match ActiveIndex(data)
      case None =>
      case Some(i) =>
        SumPartition(data.users[i].tradeEvents, TradeId, id, TradeValue);
    }
  }

  /** A daily entry never moves the total: it does not touch `value`. */
  lemma TotalAfterDailyEntry(data: AppData, tradeId: Option<string>, volume: Option<real>, fee: Option<real>)
    ensures TotalValue(DailyEntry(data, tradeId, volume, fee)) == TotalValue(data)
  {
    var after := DailyEntry(data, tradeId, volume, fee);
    if DailyEntryReady(data, tradeId, volume, fee) {
      ActiveIndexSameIds(data, after);
      match ActiveIndex(data)
      case None =>
      case Some(i) =>
        var u := data.users[i];
        var accrue := (t: TradeEvent) => Accrue(t, volume.value, fee.value);
        var m := MapWhere(u.tradeEvents, TradeId, tradeId.value, accrue);
        assert after.users[i].tradeEvents == m;
        SumMapWhere(u.tradeEvents, TradeId, tradeId.value, accrue, TradeValue);
    }
  }

  /** No reward of the active user(s) carries `id`. */
  predicate RewardIdFresh(data: AppData, id: string)
    requires data.activeUserId.Some?
  {
    forall i, j ::
      (0 <= i < |data.users| && data.users[i].id == data.activeUserId.value && 0 <= j < |data.users[i].alphaRewards|)
      ==> data.users[i].alphaRewards[j].id != id
  }

  /** No trade of the active user(s) carries `id`. */
  predicate TradeIdFresh(data: AppData, id: string)
    requires data.activeUserId.Some?
  {
    forall i, j ::
      (0 <= i < |data.users| && data.users[i].id == data.activeUserId.value && 0 <= j < |data.users[i].tradeEvents|)
      ==> data.users[i].tradeEvents[j].id != id
  }

  /** Deleting a freshly added reward by its id restores the state. */
  lemma DeleteUndoesAddReward(data: AppData, form: RewardForm, newId: string)
    requires RewardFormReady(data, form)
    requires RewardIdFresh(data, newId)
    ensures DeleteReward(AddReward(data, form, newId), newId) == data
  {
    var added := AddReward(data, form, newId);
    var back := DeleteReward(added, newId);
    var item := NewReward(form, newId);
    forall i | 0 <= i < |data.users| ensures back.users[i] == data.users[i] {
      var u := data.users[i];
      if u.id == data.activeUserId.value {
        RemoveIdAppend(u.alphaRewards, [item], RewardId, newId);
        RemoveIdAbsent(u.alphaRewards, RewardId, newId);
        assert RemoveId([item], RewardId, newId) == [] by {
          assert [item][..0] == [];
        }
        assert u.alphaRewards + [] == u.alphaRewards;
      }
    }
  }

  /** Deleting a freshly added trade by its id restores the state. */
  lemma DeleteUndoesAddTrade(data: AppData, form: TradeForm, newId: string)
    requires TradeFormReady(data, form)
    requires TradeIdFresh(data, newId)
    ensures DeleteTrade(AddTrade(data, form, newId), newId) == data
  {
    var added := AddTrade(data, form, newId);
    var back := DeleteTrade(added, newId);
    var item := NewTrade(form, newId);
    forall i | 0 <= i < |data.users| ensures back.users[i] == data.users[i] {
      var u := data.users[i];
      if u.id == data.activeUserId.value {
        RemoveIdAppend(u.tradeEvents, [item], TradeId, newId);
        RemoveIdAbsent(u.tradeEvents, TradeId, newId);
        assert RemoveId([item], TradeId, newId) == [] by {
          assert [item][..0] == [];
        }
        assert u.tradeEvents + [] == u.tradeEvents;
      }
    }
  }

  /** Two daily entries on the same trade accrue like one entry of their
      sums: volume and fee are running totals. */
  lemma DailyEntriesCompose(data: AppData, tradeId: string, v1: real, f1: real, v2: real, f2: real)
    requires Truthy(data.activeUserId) && tradeId != ""
    ensures DailyEntry(DailyEntry(data, Some(tradeId), Some(v1), Some(f1)), Some(tradeId), Some(v2), Some(f2))
         == DailyEntry(data, Some(tradeId), Some(v1 + v2), Some(f1 + f2))
  {
    var twice := DailyEntry(DailyEntry(data, Some(tradeId), Some(v1), Some(f1)), Some(tradeId), Some(v2), Some(f2));
    var merged := DailyEntry(data, Some(tradeId), Some(v1 + v2), Some(f1 + f2));
    forall i | 0 <= i < |data.users| ensures twice.users[i] == merged.users[i] {
      var a, b := twice.users[i].tradeEvents, merged.users[i].tradeEvents;
      forall j | 0 <= j < |a| ensures a[j] == b[j] {
        DailyEntriesComposeAt(data, tradeId, v1, f1, v2, f2, i, j);
      }
    }
  }

  /** `DailyEntriesCompose` at one trade of one user. */
  lemma DailyEntriesComposeAt(data: AppData, tradeId: string, v1: real, f1: real, v2: real, f2: real, i: nat, j: nat)
    requires Truthy(data.activeUserId) && tradeId != ""
    requires i < |data.users| && j < |data.users[i].tradeEvents|
    ensures var twice := DailyEntry(DailyEntry(data, Some(tradeId), Some(v1), Some(f1)), Some(tradeId), Some(v2), Some(f2));
      var merged := DailyEntry(data, Some(tradeId), Some(v1 + v2), Some(f1 + f2));
      && |twice.users[i].tradeEvents| == |merged.users[i].tradeEvents| == |data.users[i].tradeEvents|
      && twice.users[i].tradeEvents[j] == merged.users[i].tradeEvents[j]
  {
    var once := DailyEntry(data, Some(tradeId), Some(v1), Some(f1));
    var t := data.users[i].tradeEvents[j];
    var t1 := once.users[i].tradeEvents[j];
    assert once.users[i].id == data.users[i].id;
  }

  /** A trade at volume 100 and fee 2 that receives a daily entry of
      volume 50 and fee 1 ends at volume 150 and fee 3, same value. */
  lemma DailyEntryExample()
    ensures
      var t := TradeEvent("te1", "AAA", 100.0, 2.0, 10.0, 40.0);
      var data := AppData([User("u1", "My Portfolio", [], [t])], Some("u1"));
      DailyEntry(data, Some("te1"), Some(50.0), Some(1.0)).users[0].tradeEvents[0]
        == TradeEvent("te1", "AAA", 150.0, 3.0, 10.0, 40.0)
  {
  }

  /** A freshly added user is selected and, holding no records, shows a
      total of 0. */
  lemma TotalAfterAddUser(data: AppData, name: string, newId: string)
    requires !Text.AllWhitespace(name)
    requires forall j :: 0 <= j < |data.users| ==> data.users[j].id != newId
    ensures TotalValue(AddUser(data, name, newId)) == 0.0
  {
    var after := AddUser(data, name, newId);
    assert after.users[|data.users|].id == newId;
  }

  /** Confirmed deletion of a freshly added (hence selected) user gives
      back the user list as it was. */
  lemma DeleteUndoesAddUser(data: AppData, name: string, newId: string)
    requires !Text.AllWhitespace(name) && newId != ""
    requires forall j :: 0 <= j < |data.users| ==> data.users[j].id != newId
    ensures DeleteCurrentUser(AddUser(data, name, newId), true).users == data.users
  {
    var added := AddUser(data, name, newId);
    var u := User(newId, Text.Trim(name), [], []);
    RemoveIdAppend(data.users, [u], UserId, newId);
    RemoveIdAbsent(data.users, UserId, newId);
    assert RemoveId([u], UserId, newId) == [] by {
      assert [u][..0] == [];
    }
    assert data.users + [] == data.users;
  }

  /** A confirmed delete keeps exactly the users without the active id:
      every one of them survives, and no user with the id does. */
  lemma DeleteCurrentUserMembers(data: AppData)
    requires Truthy(data.activeUserId)
    ensures forall u :: u in DeleteCurrentUser(data, true).users <==>
      u in data.users && u.id != data.activeUserId.value
  {
  }

  /** After a confirmed deletion the selection moves to the first user, in
      the original order, whose id differs from the deleted one, and to
      nothing when every user carried that id. */
  lemma DeleteCurrentUserSelectsFirstSurvivor(data: AppData, j: nat)
    requires Truthy(data.activeUserId)
    requires j < |data.users| && data.users[j].id != data.activeUserId.value
    requires forall k :: 0 <= k < j ==> data.users[k].id == data.activeUserId.value
    ensures DeleteCurrentUser(data, true).activeUserId == Some(data.users[j].id)
  {
    var id := data.activeUserId.value;
    var us := data.users;
    var rest := RemoveId(us[j..], UserId, id);
    assert us == us[..j] + us[j..];
    RemoveIdAppend(us[..j], us[j..], UserId, id);
    RemoveIdAllMatch(us[..j], UserId, id);
    RemoveIdKeepsHead(us[j..], UserId, id);
    assert RemoveId(us, UserId, id) == rest;
  }

  lemma RemoveIdAllMatch<T(!new)>(s: seq<T>, idOf: T -> string, id: string)
    requires forall k :: 0 <= k < |s| ==> idOf(s[k]) == id
    ensures RemoveId(s, idOf, id) == []
  {
  }

  lemma RemoveIdKeepsHead<T(!new)>(s: seq<T>, idOf: T -> string, id: string)
    requires s != [] && idOf(s[0]) != id
    ensures RemoveId(s, idOf, id) != [] && RemoveId(s, idOf, id)[0] == s[0]
  {
    assert s == [s[0]] + s[1..];
    RemoveIdAppend([s[0]], s[1..], idOf, id);
    assert RemoveId([s[0]], idOf, id) == [s[0]] by {
      assert [s[0]][..0] == [];
    }
  }

  /** When every user carries the deleted id, nothing remains selected. */
  lemma DeleteLastUsersClearsSelection(data: AppData)
    requires Truthy(data.activeUserId)
    requires forall k :: 0 <= k < |data.users| ==> data.users[k].id == data.activeUserId.value
    ensures DeleteCurrentUser(data, true) == AppData([], None)
  {
    RemoveIdAllMatch(data.users, UserId, data.activeUserId.value);
  }
}

=== FILE: records.dfy ===
/** The portfolio record store: the list transformations that the React
    handlers of the app apply to the user list. Each handler is a pure
    function from the current `AppData` (and the form contents) to the next
    one; ids that the source draws from the clock are parameters, so two
    records may share an id and every property quantifies over all matches. */
module Records {
  import opened Types
  import Text

  // ---------------------------------------------------------------------
  // Generic list helpers: `map` restricted to an id, `filter` by id, fold.
  // ---------------------------------------------------------------------

  /** `s.map(x => idOf(x) === id ? f(x) : x)`. */
  function MapWhere<T>(s: seq<T>, idOf: T -> string, id: string, f: T -> T): (r: seq<T>)
    ensures |r| == |s|
    ensures forall i :: 0 <= i < |s| && idOf(s[i]) == id ==> r[i] == f(s[i])
    ensures forall i :: 0 <= i < |s| && idOf(s[i]) != id ==> r[i] == s[i]
  {
    if s == [] then []
    else
      var last := s[|s| - 1];
      MapWhere(s[..|s| - 1], idOf, id, f) + [if idOf(last) == id then f(last) else last]
  }

  /** `s.filter(x => idOf(x) !== id)`. */
  function RemoveId<T(!new)>(s: seq<T>, idOf: T -> string, id: string): (r: seq<T>)
    ensures |r| <= |s|
    ensures forall x :: x in r <==> x in s && idOf(x) != id
  {
    if s == [] then []
    else
      var last := s[|s| - 1];
      assert s == s[..|s| - 1] + [last];
      RemoveId(s[..|s| - 1], idOf, id) + (if idOf(last) != id then [last] else [])
  }

  /** The complement of `RemoveId`: the items that carry `id`. */
  function WithId<T(!new)>(s: seq<T>, idOf: T -> string, id: string): (r: seq<T>)
    ensures forall x :: x in r <==> x in s && idOf(x) == id
  {
    if s == [] then []
    else
      var last := s[|s| - 1];
      assert s == s[..|s| - 1] + [last];
      WithId(s[..|s| - 1], idOf, id) + (if idOf(last) == id then [last] else [])
  }

  /** `s.reduce((sum, item) => sum + v(item), 0)`: a left fold. */
  function Sum<T>(s: seq<T>, v: T -> real): (r: real)
    ensures s == [] ==> r == 0.0
    ensures |s| == 1 ==> r == v(s[0])
  {
    if s == [] then 0.0 else Sum(s[..|s| - 1], v) + v(s[|s| - 1])
  }

  /** Filtering keeps the survivors in their original order: it distributes
      over concatenation. */
  lemma {:induction false} RemoveIdAppend<T(!new)>(a: seq<T>, b: seq<T>, idOf: T -> string, id: string)
    ensures RemoveId(a + b, idOf, id) == RemoveId(a, idOf, id) + RemoveId(b, idOf, id)
  {
    if b == [] {
      assert a + b == a;
    } else {
      var last := b[|b| - 1];
      assert (a + b)[..|a + b| - 1] == a + b[..|b| - 1];
      assert (a + b)[|a + b| - 1] == last;
      RemoveIdAppend(a, b[..|b| - 1], idOf, id);
    }
  }

  /** One step of the filter: the last item survives exactly when it does
      not carry `id`. */
  lemma RemoveIdSnoc<T(!new)>(init: seq<T>, last: T, idOf: T -> string, id: string)
    ensures RemoveId(init + [last], idOf, id) ==
      RemoveId(init, idOf, id) + (if idOf(last) != id then [last] else [])
  {
    assert (init + [last])[..|init + [last]| - 1] == init;
  }

  /** Filtering a list with no item carrying `id` leaves it as it is. */
  lemma {:induction false} RemoveIdAbsent<T(!new)>(s: seq<T>, idOf: T -> string, id: string)
    requires forall i :: 0 <= i < |s| ==> idOf(s[i]) != id
    ensures RemoveId(s, idOf, id) == s
  {
    if s != [] {
      var init, last := s[..|s| - 1], s[|s| - 1];
      assert s == init + [last];
      RemoveIdAbsent(init, idOf, id);
      RemoveIdSnoc(init, last, idOf, id);
    }
  }

  lemma {:induction false} SumAppend<T>(a: seq<T>, b: seq<T>, v: T -> real)
    ensures Sum(a + b, v) == Sum(a, v) + Sum(b, v)
  {
    if b == [] {
      assert a + b == a;
    } else {
      assert (a + b)[..|a + b| - 1] == a + b[..|b| - 1];
      SumAppend(a, b[..|b| - 1], v);
    }
  }

  /** The total splits into the part an id filter keeps and the part it
      removes. */
  lemma {:induction false} SumPartition<T(!new)>(s: seq<T>, idOf: T -> string, id: string, v: T -> real)
    ensures Sum(s, v) == Sum(RemoveId(s, idOf, id), v) + Sum(WithId(s, idOf, id), v)
  {
    if s != [] {
      var init, last := s[..|s| - 1], s[|s| - 1];
      SumPartition(init, idOf, id, v);
      SumAppend(RemoveId(init, idOf, id), if idOf(last) != id then [last] else [], v);
      SumAppend(WithId(init, idOf, id), if idOf(last) == id then [last] else [], v);
      assert Sum([last], v) == v(last) by {
        assert [last][..0] == [];
      }
    }
  }

  // ---------------------------------------------------------------------
  // Field accessors passed to the generic helpers.
  // ---------------------------------------------------------------------

  function UserId(u: User): string { u.id }
  function RewardId(a: AlphaReward): string { a.id }
  function TradeId(t: TradeEvent): string { t.id }
  function RewardValue(a: AlphaReward): real { a.value }
  function TradeValue(t: TradeEvent): real { t.value }

  // ---------------------------------------------------------------------
  // The active user and the portfolio total.
  // ---------------------------------------------------------------------

  /** `users.findIndex(u => u.id === id)`, with -1 as `None`. */
  function FirstIndex(users: seq<User>, id: string): (r: Option<nat>)
    ensures r.Some? ==> r.value < |users| && users[r.value].id == id
    ensures r.Some? ==> forall j :: 0 <= j < r.value ==> users[j].id != id
    ensures r.None? ==> forall j :: 0 <= j < |users| ==> users[j].id != id
  {
    if users == [] then None
    else if users[0].id == id then Some(0)
    else match FirstIndex(users[1..], id)
      case None => None
      case Some(i) => Some(i + 1)
  }

  /** Two lists with the same ids position by position find the same
      first index. */
  lemma FirstIndexSameIds(a: seq<User>, b: seq<User>, id: string)
    requires |a| == |b|
    requires forall i :: 0 <= i < |a| ==> a[i].id == b[i].id
    ensures FirstIndex(a, id) == FirstIndex(b, id)
  {
  }

  /** The position of the active user: the first user whose id is the
      active id; a `null` id finds nothing. */
  function ActiveIndex(data: AppData): (r: Option<nat>)
    ensures r.Some? ==> data.activeUserId.Some? && r.value < |data.users|
    ensures r.Some? ==> data.users[r.value].id == data.activeUserId.value
    ensures r.Some? ==> forall j :: 0 <= j < r.value ==> data.users[j].id != data.activeUserId.value
    ensures r.None? && data.activeUserId.Some? ==>
              forall j :: 0 <= j < |data.users| ==> data.users[j].id != data.activeUserId.value
    ensures data.activeUserId.None? ==> r.None?
  {
    match data.activeUserId
    case None => None
    case Some(id) => FirstIndex(data.users, id)
  }

  /** `users.find(u => u.id === activeUserId)`. */
  function ActiveUser(data: AppData): (r: Option<User>)
    ensures r.Some? <==> ActiveIndex(data).Some?
    ensures r.Some? ==> r.value == data.users[ActiveIndex(data).value]
    ensures r.Some? ==> r.value in data.users && r.value.id == data.activeUserId.value
  {
    match ActiveIndex(data)
    case None => None
    case Some(i) => Some(data.users[i])
  }

  /** Changes that keep every user's id in place keep the active position. */
  lemma ActiveIndexSameIds(data: AppData, after: AppData)
    requires after.activeUserId == data.activeUserId
    requires |after.users| == |data.users|
    requires forall i :: 0 <= i < |data.users| ==> after.users[i].id == data.users[i].id
    ensures ActiveIndex(after) == ActiveIndex(data)
  {
    if data.activeUserId.Some? {
      FirstIndexSameIds(data.users, after.users, data.activeUserId.value);
    }
  }

  /** The `totalValue` memo: 0 with no active user, else the fold of reward
      values plus the fold of trade values, with no clamping of signs. */
  function TotalValue(data: AppData): (r: real)
    ensures ActiveUser(data).None? ==> r == 0.0
    ensures ActiveUser(data).Some? ==>
      r == Sum(ActiveUser(data).value.alphaRewards, RewardValue) + Sum(ActiveUser(data).value.tradeEvents, TradeValue)
  {
    match ActiveUser(data)
    case None => 0.0
    case Some(u) => Sum(u.alphaRewards, RewardValue) + Sum(u.tradeEvents, TradeValue)
  }

  /** `updateUser`: applies `f` to every user with the given id. */
  function UpdateUser(users: seq<User>, userId: string, f: User -> User): (r: seq<User>)
    ensures |r| == |users|
    ensures forall i :: 0 <= i < |users| ==> r[i] == (if users[i].id == userId then f(users[i]) else users[i])
  {
    MapWhere(users, UserId, userId, f)
  }

  // ---------------------------------------------------------------------
  // Rewards.
  // ---------------------------------------------------------------------

  /** The reward form; `None` is an empty numeric field. */
  datatype RewardForm = RewardForm(tokenName: string, quantity: Option<real>, value: Option<real>)

  /** The guard of `handleAddReward`: an active id and every field filled.
      A ready form always yields a reward. */
  predicate RewardFormReady(data: AppData, form: RewardForm)
    ensures RewardFormReady(data, form) ==> form.quantity.Some? && form.value.Some?
    ensures (data.activeUserId.None? || form.tokenName == "") ==> !RewardFormReady(data, form)
  {
    Truthy(data.activeUserId) && form.tokenName != "" && form.quantity.Some? && form.value.Some?
  }

  /** The reward a ready form describes, under the fresh id. */
  function NewReward(form: RewardForm, newId: string): (r: AlphaReward)
    requires form.quantity.Some? && form.value.Some?
    ensures r.id == newId && r.tokenName == form.tokenName
    ensures Some(r.quantity) == form.quantity && Some(r.value) == form.value
  {
    AlphaReward(newId, form.tokenName, form.quantity.value, form.value.value)
  }

  /** `handleAddReward`: appends one reward, built from the form, to the end
      of the active user's rewards; a no-op without an active user or with
      an empty field. */
  function AddReward(data: AppData, form: RewardForm, newId: string): (r: AppData)
    ensures r.activeUserId == data.activeUserId
    ensures !RewardFormReady(data, form) ==> r == data
    ensures RewardFormReady(data, form) ==>
      && |r.users| == |data.users|
      && forall i :: 0 <= i < |data.users| ==>
        var u := data.users[i];
        r.users[i] == if u.id == data.activeUserId.value
                      then u.(alphaRewards := u.alphaRewards + [NewReward(form, newId)])
                      else u
  {
    if !RewardFormReady(data, form) then data
    else
      var item := NewReward(form, newId);
      data.(users := UpdateUser(data.users, data.activeUserId.value,
                                (u: User) => u.(alphaRewards := u.alphaRewards + [item])))
  }

  /** `deleteReward`: removes every reward with the id from the active
      user(s); survivors keep their order, everything else is untouched. */
  function DeleteReward(data: AppData, id: string): (r: AppData)
    ensures r.activeUserId == data.activeUserId
    ensures !Truthy(data.activeUserId) ==> r == data
    ensures Truthy(data.activeUserId) ==>
      && |r.users| == |data.users|
      && forall i :: 0 <= i < |data.users| ==>
        var u := data.users[i];
        r.users[i] == if u.id == data.activeUserId.value
                      then u.(alphaRewards := RemoveId(u.alphaRewards, RewardId, id))
                      else u
  {
    if !Truthy(data.activeUserId) then data
    else
      data.(users := UpdateUser(data.users, data.activeUserId.value,
                                (u: User) => u.(alphaRewards := RemoveId(u.alphaRewards, RewardId, id))))
  }

  // ---------------------------------------------------------------------
  // Trades.
  // ---------------------------------------------------------------------

  /** The add-trade form; `None` is an empty numeric field. */
  datatype TradeForm = TradeForm(
    tokenName: string,
    initialVolume: Option<real>,
    initialFee: Option<real>,
    rewardQuantity: Option<real>,
    value: Option<real>
  )

  /** The guard of `handleAddTrade`: an active id and all five fields
      filled. A ready form always yields a trade. */
  predicate TradeFormReady(data: AppData, form: TradeForm)
    ensures TradeFormReady(data, form) ==>
      form.initialVolume.Some? && form.initialFee.Some? && form.rewardQuantity.Some? && form.value.Some?
    ensures (data.activeUserId.None? || form.tokenName == "") ==> !TradeFormReady(data, form)
  {
    && Truthy(data.activeUserId)
    && form.tokenName != ""
    && form.initialVolume.Some? && form.initialFee.Some?
    && form.rewardQuantity.Some? && form.value.Some?
  }

  /** The trade a ready form describes: the initial volume and fee start
      the running totals. */
  function NewTrade(form: TradeForm, newId: string): (r: TradeEvent)
    requires form.initialVolume.Some? && form.initialFee.Some?
    requires form.rewardQuantity.Some? && form.value.Some?
    ensures r.id == newId && r.tokenName == form.tokenName
    ensures Some(r.totalVolume) == form.initialVolume && Some(r.totalTradeFee) == form.initialFee
    ensures Some(r.rewardQuantity) == form.rewardQuantity && Some(r.value) == form.value
  {
    TradeEvent(newId, form.tokenName, form.initialVolume.value, form.initialFee.value,
               form.rewardQuantity.value, form.value.value)
  }

  /** `handleAddTrade`: appends one trade to the end of the active user's
      trades; a no-op without an active user or with an empty field. */
  function AddTrade(data: AppData, form: TradeForm, newId: string): (r: AppData)
    ensures r.activeUserId == data.activeUserId
    ensures !TradeFormReady(data, form) ==> r == data
    ensures TradeFormReady(data, form) ==>
      && |r.users| == |data.users|
      && forall i :: 0 <= i < |data.users| ==>
        var u := data.users[i];
        r.users[i] == if u.id == data.activeUserId.value
                      then u.(tradeEvents := u.tradeEvents + [NewTrade(form, newId)])
                      else u
  {
    if !TradeFormReady(data, form) then data
    else
      var item := NewTrade(form, newId);
      data.(users := UpdateUser(data.users, data.activeUserId.value,
                                (u: User) => u.(tradeEvents := u.tradeEvents + [item])))
  }

  /** `deleteTrade`: removes every trade with the id from the active
      user(s). */
  function DeleteTrade(data: AppData, id: string): (r: AppData)
    ensures r.activeUserId == data.activeUserId
    ensures !Truthy(data.activeUserId) ==> r == data
    ensures Truthy(data.activeUserId) ==>
      && |r.users| == |data.users|
      && forall i :: 0 <= i < |data.users| ==>
        var u := data.users[i];
        r.users[i] == if u.id == data.activeUserId.value
                      then u.(tradeEvents := RemoveId(u.tradeEvents, TradeId, id))
                      else u
  {
    if !Truthy(data.activeUserId) then data
    else
      data.(users := UpdateUser(data.users, data.activeUserId.value,
                                (u: User) => u.(tradeEvents := RemoveId(u.tradeEvents, TradeId, id))))
  }

  /** One daily entry applied to one trade: volume and fee accrue, every
      other field (`value` included) stays. */
  function Accrue(t: TradeEvent, volume: real, fee: real): (r: TradeEvent)
    ensures r.totalVolume - t.totalVolume == volume && r.totalTradeFee - t.totalTradeFee == fee
    ensures r.(totalVolume := t.totalVolume, totalTradeFee := t.totalTradeFee) == t
  {
    t.(totalVolume := t.totalVolume + volume, totalTradeFee := t.totalTradeFee + fee)
  }

  /** The guard of `handleUpdateTrade`: an active id, a selected trade and
      both amounts filled; a null or empty selected id is never ready. */
  predicate DailyEntryReady(data: AppData, tradeId: Option<string>, volume: Option<real>, fee: Option<real>)
    ensures DailyEntryReady(data, tradeId, volume, fee) ==> volume.Some? && fee.Some?
    ensures (tradeId.None? || tradeId == Some("")) ==> !DailyEntryReady(data, tradeId, volume, fee)
  {
    Truthy(data.activeUserId) && Truthy(tradeId) && volume.Some? && fee.Some?
  }

  /** `handleUpdateTrade`: within the active user(s), every trade with the
      selected id gains the entered volume and fee. */
  function DailyEntry(data: AppData, tradeId: Option<string>, volume: Option<real>, fee: Option<real>): (r: AppData)
    ensures r.activeUserId == data.activeUserId
    ensures !DailyEntryReady(data, tradeId, volume, fee) ==> r == data
    ensures DailyEntryReady(data, tradeId, volume, fee) ==>
      && |r.users| == |data.users|
      && forall i :: 0 <= i < |data.users| ==>
        var u, u' := data.users[i], r.users[i];
        && u'.id == u.id && u'.name == u.name && u'.alphaRewards == u.alphaRewards
        && |u'.tradeEvents| == |u.tradeEvents|
        && forall j :: 0 <= j < |u.tradeEvents| ==>
          var t, t' := u.tradeEvents[j], u'.tradeEvents[j];
          if u.id == data.activeUserId.value && t.id == tradeId.value
          then && t'.totalVolume == t.totalVolume + volume.value
               && t'.totalTradeFee == t.totalTradeFee + fee.value
               && t'.value == t.value && t'.rewardQuantity == t.rewardQuantity
               && t'.tokenName == t.tokenName && t'.id == t.id
          else t' == t
  {
    if !DailyEntryReady(data, tradeId, volume, fee) then data
    else
      data.(users := UpdateUser(data.users, data.activeUserId.value,
        (u: User) => u.(tradeEvents := MapWhere(u.tradeEvents, TradeId, tradeId.value,
                                        (t: TradeEvent) => Accrue(t, volume.value, fee.value)))))
  }

  // ---------------------------------------------------------------------
  // Users.
  // ---------------------------------------------------------------------

  /** `handleAddNewUser`: with a name that is not all whitespace, appends a
      user with the trimmed name and no records and selects it. */
  function AddUser(data: AppData, name: string, newId: string): (r: AppData)
    ensures Text.AllWhitespace(name) ==> r == data
    ensures !Text.AllWhitespace(name) ==>
      && r.users == data.users + [User(newId, Text.Trim(name), [], [])]
      && r.activeUserId == Some(newId)
  {
    var trimmed := Text.Trim(name);
    if trimmed == "" then data
    else AppData(data.users + [User(newId, trimmed, [], [])], Some(newId))
  }

  /** `handleDeleteCurrentUser`: when there is an active user and the
      deletion is confirmed, removes every user with that id (their rewards
      and trades go with them) and selects the first remaining user. */
  function DeleteCurrentUser(data: AppData, confirmed: bool): (r: AppData)
    ensures !(Truthy(data.activeUserId) && confirmed) ==> r == data
    ensures Truthy(data.activeUserId) && confirmed ==>
      && r.users == RemoveId(data.users, UserId, data.activeUserId.value)
      && (r.users == [] ==> r.activeUserId == None)
      && (r.users != [] ==> r.activeUserId == Some(r.users[0].id))
  {
    if !(Truthy(data.activeUserId) && confirmed) then data
    else
      var remaining := RemoveId(data.users, UserId, data.activeUserId.value);
      AppData(remaining, if |remaining| > 0 then Some(remaining[0].id) else None)
  }
}

=== FILE: text.dfy ===
/** The two JavaScript string primitives the core relies on:
    `String.prototype.trim` (used when a user is added) and `String.length`
    (used by the minimum-password-length rule), which counts UTF-16 code
    units rather than characters. Dafny's `char` is a Unicode scalar value. */
module Text {

  /** The characters ECMAScript `trim` removes: WhiteSpace (tab, vertical
      tab, form feed, space, no-break space, byte-order mark and the other
      Zs space separators) and LineTerminator (LF, CR, U+2028, U+2029). */
  const Whitespace: set<char> := {
    '\U{9}', '\U{A}', '\U{B}', '\U{C}', '\U{D}', '\U{20}', '\U{A0}',
    '\U{1680}', '\U{2000}', '\U{2001}', '\U{2002}', '\U{2003}', '\U{2004}', '\U{2005}',
    '\U{2006}', '\U{2007}', '\U{2008}', '\U{2009}', '\U{200A}', '\U{2028}', '\U{2029}',
    '\U{202F}', '\U{205F}', '\U{3000}', '\U{FEFF}'
  }

  predicate IsWhitespace(c: char) {
    c in Whitespace
  }

  predicate AllWhitespace(s: string) {
    forall i :: 0 <= i < |s| ==> IsWhitespace(s[i])
  }

  /** The scan for the first character `trim` keeps: the index of the
      first non-whitespace character at or after `from`, or `|s|` when
      there is none. */
  function TrimStart(s: string, from: nat): (k: nat)
    requires from <= |s|
    ensures from <= k <= |s|
    ensures forall j :: from <= j < k ==> IsWhitespace(s[j])
    ensures k < |s| ==> !IsWhitespace(s[k])
    decreases |s| - from
  {
    if from < |s| && IsWhitespace(s[from]) then TrimStart(s, from + 1) else from
  }

  /** The scan for the end of what `trim` keeps: the smallest `k` in
      `[lo, hi]` with only whitespace in `s[k..hi]`. */
  function TrimEnd(s: string, lo: nat, hi: nat): (k: nat)
    requires lo <= hi <= |s|
    ensures lo <= k <= hi
    ensures forall j :: k <= j < hi ==> IsWhitespace(s[j])
    ensures k > lo ==> !IsWhitespace(s[k - 1])
    decreases hi - lo
  {
    if lo < hi && IsWhitespace(s[hi - 1]) then TrimEnd(s, lo, hi - 1) else hi
  }

  /** `s` is `r` framed by whitespace: `r` starts at index `k` of `s` and
      every character before and after it is whitespace. */
  predicate Framed(s: string, r: string, k: int) {
    && 0 <= k <= |s| - |r|
    && s[k..k + |r|] == r
    && (forall j :: 0 <= j < k ==> IsWhitespace(s[j]))
    && (forall j :: k + |r| <= j < |s| ==> IsWhitespace(s[j]))
  }

  /** `s.trim()`: the slice of `s` between its first and its last
      non-whitespace character, empty when `s` is all whitespace. */
  function Trim(s: string): (r: string)
    ensures exists k :: Framed(s, r, k)
    ensures r == [] <==> AllWhitespace(s)
    ensures r != [] ==> !IsWhitespace(r[0]) && !IsWhitespace(r[|r| - 1])
  {
    var a := TrimStart(s, 0);
    var b := TrimEnd(s, a, |s|);
    assert Framed(s, s[a..b], a);
    s[a..b]
  }

  /** Trimming twice changes nothing. */
  lemma TrimIdempotent(s: string)
    ensures Trim(Trim(s)) == Trim(s)
  {
    var r := Trim(s);
    if r != [] {
      assert TrimStart(r, 0) == 0;
      assert TrimEnd(r, 0, |r|) == |r|;
    }
  }

  /** Code units one character occupies in UTF-16: two for characters
      outside the Basic Multilingual Plane (a surrogate pair), else one. */
  function Utf16Units(c: char): nat {
    if c as int > 0xFFFF then 2 else 1
  }

  /** JavaScript's `s.length`. */
  function Utf16Length(s: string): (r: nat)
    ensures |s| <= r <= 2 * |s|
    ensures r == 0 <==> s == []
  {
    if s == [] then 0 else Utf16Units(s[0]) + Utf16Length(s[1..])
  }

  /** For text inside the Basic Multilingual Plane, `length` is the number
      of characters. */
  lemma {:induction false} Utf16LengthOfBmp(s: string)
    requires forall i :: 0 <= i < |s| ==> s[i] as int <= 0xFFFF
    ensures Utf16Length(s) == |s|
  {
    if s != [] {
      assert forall i :: 0 <= i < |s[1..]| ==> s[1..][i] == s[i + 1];
      Utf16LengthOfBmp(s[1..]);
    }
  }

  /** A character outside the Basic Multilingual Plane is a surrogate pair:
      two code units. With `Utf16LengthAppend` this fixes the length of
      every string. */
  lemma Utf16LengthOfAstral(c: char)
    requires c as int > 0xFFFF
    ensures Utf16Length([c]) == 2
  {
  }

  /** `length` adds up over concatenation. */
  lemma {:induction false} Utf16LengthAppend(a: string, b: string)
    ensures Utf16Length(a + b) == Utf16Length(a) + Utf16Length(b)
  {
    if a != [] {
      assert (a + b)[0] == a[0];
      assert (a + b)[1..] == a[1..] + b;
      Utf16LengthAppend(a[1..], b);
    } else {
      assert a + b == b;
    }
  }
}

=== FILE: types.dfy ===
/** The record shapes of the portfolio tracker: a reward line item, a trade
    line item, and a user (portfolio) that embeds both collections in order.
    Numeric fields are `real`: the model does not follow IEEE rounding. */
module Types {

  datatype Option<+T> = None | Some(value: T)

  /** A flat airdrop/incentive credit. `value` has no sign constraint. */
  datatype AlphaReward = AlphaReward(
    id: string,
    tokenName: string,
    quantity: real,
    value: real
  )

  /** A tracked trading position; `totalVolume` and `totalTradeFee` grow by
      daily entries, `value` is entered once and never recomputed. */
  datatype TradeEvent = TradeEvent(
    id: string,
    tokenName: string,
    totalVolume: real,
    totalTradeFee: real,
    rewardQuantity: real,
    value: real
  )

  /** A portfolio. Its rewards and trades live inside it, so removing the
      user removes them too. */
  datatype User = User(
    id: string,
    name: string,
    alphaRewards: seq<AlphaReward>,
    tradeEvents: seq<TradeEvent>
  )

  /** The in-memory application data: the user list and the selected user id
      (`null` in the source is `None`). */
  datatype AppData = AppData(users: seq<User>, activeUserId: Option<string>)

  /** JavaScript truthiness of a `string | null`: both `null` and `""` are
      falsy, every other string is truthy. */
  predicate Truthy(s: Option<string>) {
    s.Some? && s.value != ""
  }
}
